=== FILE: README.md ===
# Relay bookkeeping of simplebot_tggroups, in Dafny

simplebot_tggroups is a plugin for the SimpleBot Delta Chat bot that bridges
Delta Chat groups with Telegram chats. This project models its relay
bookkeeping as a sequential system of pure transitions. The model has four
pieces of state (`BotState.State`):

- the **link table** (`LinkStore`): one row `(dcchat, tgchat)` per bridge.
  `dcchat` is the primary key and `tgchat` is not unique. Every change runs
  inside `session_scope`, which commits or rolls back. Scopes are serialised
  by one process-wide lock, so each scope is one atomic step here.
- the **message-identity cache** (`CacheKeys`): text keys
  `d{tgchat}/{dcid}` → Telegram message id and `t{tgchat}/{tgid}` → Delta
  Chat message id. Keys are a datatype `Key(side, tgchat, msg)`. Their text
  encoding is proved injective by decoding it back.
- the **plugin settings** (`PluginConfig`): a string map in which every key of
  the plugin lives under the scope `simplebot_tggroups`. The model covers
  `getdefault`, `set_config` and the `max_size` default of 5 MiB stored by
  `deltabot_init`.
- the **relay queue** (`RelayQueue`): the FIFO of `(tgchat, message)` items.
  The Delta Chat filter fills it and the Telegram worker drains it.

Each operation returns the new state and the list of messages it sends
(`BotState.Effect`):

- `Commands`: `/bridge`, `/unbridge`, the member-removed hook,
  `filter_messages` and `deltabot_init`.
- `DeltaToTelegram`: one iteration of the `dc2tg` worker loop (`Step`), and a
  run of iterations (`RunWorker`).
- `TelegramToDelta`: the `tg2dc` handler.
- `ReplyThreading`: how the cache links replies across the two sides.

The results of calls into the chat clients are parameters (`Env`). These are:
the outcome of `send_message`, the result of `download_media`, whether AAC
transcoding worked, whether a message id exists, and whether a notice went
through.

Points of the code's behaviour that the model keeps as written:

- When the worker dequeues a Delta Chat message with no text, no file and no
  HTML part, it executes `return` (`simplebot_tggroups/__init__.py:104-108`).
  That ends the whole `dc2tg` loop, and every later queued item stays queued.
  See `DeltaToTelegram.UnsupportedMessageEndsWorker`.
- The Telegram-to-Delta handler sends nothing when the message text is
  `None`, when the chat has no link, when the message has no user sender
  (reading the sender's name raises), when `max_size` cannot be read for a
  message with a file, when the download raises, and when the text is empty
  and no file was downloaded (`simplebot_tggroups/__init__.py:158-187`). A
  message with empty text whose file was downloaded is relayed. See
  `TelegramToDelta.DraftFor` and `TelegramToDelta.MediaOnlyMessageRelayed`.
- Cache keys use the tags `d` and `t` with the Telegram chat id in both
  (`d{tgchat}/{dcid}`, `t{tgchat}/{tgid}`).
- The query `filter_by(tgchat=...)` is modelled as `LinkStore.DcChatsOf`,
  which lists the groups in ascending `dcchat` order. This is a modelling
  assumption: the query has no ORDER BY, and ascending row-id order is
  SQLite's usual scan order for a table whose INTEGER primary key is the row
  id, not a guarantee.

## Model

| member | source | states |
|---|---|---|
| LinkStore.PrimaryKey | simplebot_tggroups/orm.py:23-25 | In a valid table, two rows with the same `dcchat` are the same row: each Delta Chat group is bridged to at most one Telegram chat |
| LinkStore.SharedTelegramChat | simplebot_tggroups/orm.py:25 | `tgchat` is not unique: a group with no link can be bridged to a Telegram chat that another group already uses, and afterwards both groups are listed for that chat |
| LinkStore.LookupExact | simplebot_tggroups/orm.py:23-25 | In a valid table, the lookup of a `dcchat` returns `tg` exactly when the row `(dcchat, tg)` is present |
| LinkStore.Lookup | simplebot_tggroups/__init__.py:287 | `filter_by(dcchat=...).first()`: a found Telegram chat comes from a row of that group, and no result means no row has that group |
| LinkStore.RowsOfDc | simplebot_tggroups/__init__.py:254 | `filter_by(dcchat=dc)` returns exactly the rows with that key, and because of the primary key there is at most one |
| LinkStore.DcChatsOf | simplebot_tggroups/__init__.py:162-165 | `filter_by(tgchat=tg)` lists exactly the groups bridged to `tg`, each once, in ascending order |
| LinkStore.InsertRow | simplebot_tggroups/orm.py:24 | Inserting a row with a new key keeps the table valid, and the table then holds exactly the old rows plus the new one |
| LinkStore.Without | simplebot_tggroups/orm.py:24 | Deleting a key keeps the table valid and removes exactly the rows with that key |
| LinkStore.WithoutAbsent | simplebot_tggroups/__init__.py:243-246 | Deleting a key that no row has leaves the table unchanged |
| LinkStore.Apply | simplebot_tggroups/orm.py:24 | Adding a row fails with an integrity error exactly when its key is already bound. A successful add contributes exactly that row. A delete always succeeds and removes exactly the rows with that key |
| LinkStore.Flush | simplebot_tggroups/orm.py:35 | A successful commit leaves a valid table |
| LinkStore.SessionScope | simplebot_tggroups/orm.py:28-40 | The scope commits exactly when the body completes and its changes commit, and the result is the committed table. Otherwise the scope rolls back to the table it started from, and a raising body is reported as that exception. The table stays valid either way |
| LinkStore.Deletes | simplebot_tggroups/__init__.py:127-132 | One `session.delete` for each listed group, in the same order |
| LinkStore.FlushDeletes | simplebot_tggroups/__init__.py:127-132 | Deleting a list of keys always commits and removes exactly the rows with those keys |
| LinkStore.DeleteAllOfTg | simplebot_tggroups/__init__.py:126-132 | Deleting every group listed for `tg` keeps exactly the rows that point at other Telegram chats |
| LinkStore.LookupAfterAdd | simplebot_tggroups/__init__.py:275-276 | A commit that adds one row succeeds exactly when the key was free. It then binds that key and changes the lookup of no other key |
| LinkStore.LookupAfterDelete | simplebot_tggroups/__init__.py:286-289 | Committing the deletion of a key unbinds that key and changes the lookup of no other key |
| LinkStore.LookupAfterDeleteAllOfTg | simplebot_tggroups/__init__.py:126-132 | The auto-unbridge commit unbinds exactly the groups bridged to the unreachable chat and keeps all other links |
| CacheKeys.DecodeEncode | simplebot_tggroups/__init__.py:120-121 | Decoding the text `d`/`t` + chat + `/` + id of a key gives that key back |
| CacheKeys.Encode | simplebot_tggroups/__init__.py:120-121 | The key text starts with `d` exactly for a Delta Chat message id and with `t` exactly for a Telegram one, so the two sides never share a key |
| CacheKeys.EncodeInjective | simplebot_tggroups/__init__.py:120-121 | Distinct keys have distinct texts |
| CacheKeys.Get | simplebot_tggroups/__init__.py:111 | `cache.get` finds nothing exactly when the key's text was never written, so an empty cache finds nothing |
| CacheKeys.Set | simplebot_tggroups/__init__.py:120-121 | After `cache.set`, the key reads back the written value, every other key reads as before, and only that key's text is added |
| CacheKeys.GetAfterSet | simplebot_tggroups/__init__.py:120-121 | After `cache.set`, reading the written key returns the written value, and reading any other key returns what it held before |
| CacheKeys.RecordPair | simplebot_tggroups/__init__.py:120-121 | After a relay, the `d` key of the Delta Chat id maps to the Telegram id and the `t` key of the Telegram id maps to the Delta Chat id. Every other key is unchanged |
| Decimal.ParseFormat | simplebot_tggroups/__init__.py:263 | `int(str(n)) == n`: parsing the text of an integer gives the integer back |
| Decimal.FormatInjective | simplebot_tggroups/__init__.py:111 | Different integers have different decimal texts |
| Decimal.ParseInt | simplebot_tggroups/__init__.py:263 | `int(payload)` succeeds exactly on digits with an optional `+` or `-` sign, and gives the signed value of the digits; the empty string is refused |
| PluginConfig.MaxSize | simplebot_tggroups/__init__.py:180-182 | `int(getdefault(bot, "max_size"))` has no value exactly when the setting is unset or holds text that `int()` refuses (such as `5MB`), and reads back `n` when the setting holds the text of `n` |
| PluginConfig.GetDefault | simplebot_tggroups/util.py:41-46 | For a stored key: returns the stored value and changes nothing. For a missing key with a default: stores the default and returns it. For a missing key without a default: returns nothing and writes nothing. Keys other than `simplebot_tggroups/<name>` are untouched |
| PluginConfig.SetConfig | simplebot_tggroups/util.py:49-50 | Overwrites only the given key in the plugin's scope |
| PluginConfig.GetDefaultIdempotent | simplebot_tggroups/util.py:41-46 | Repeating `getdefault` with the same arguments returns the same value and leaves the same settings |
| PluginConfig.GetAfterSet | simplebot_tggroups/util.py:49-50 | After `set_config`, `getdefault` returns the new value, whatever its default |
| PluginConfig.DeltabotInit | simplebot_tggroups/__init__.py:212-215 | After start-up, `max_size` is set. If it was unset, it now reads 5242880. If it was set, nothing changes. No other setting changes |
| PluginConfig.DeltabotInitIdempotent | simplebot_tggroups/__init__.py:214 | Running the start-up default twice is the same as running it once |
| RelayQueue.PutNowait | simplebot_tggroups/util.py:25-30 | `put_nowait` fails exactly when the queue is full. Otherwise it appends the item behind all earlier items |
| RelayQueue.GetNowait | simplebot_tggroups/util.py:18-23 | `get_nowait` fails exactly on an empty queue. Otherwise it returns the oldest item and the rest of the queue |
| RelayQueue.UnboundedNeverFull | simplebot_tggroups/__init__.py:27 | The relay queue is created unbounded, so a put always succeeds on its first attempt |
| RelayQueue.APutSucceedsAfterGet | simplebot_tggroups/util.py:25-30 | When a bounded queue is full, a retrying `aput` succeeds once the consumer has taken one item. The item is never dropped |
| RelayQueue.FifoOrder | simplebot_tggroups/util.py:18-23 | Draining the queue returns the items already queued, then the new items, each in the order they were put |
| RelayQueue.DrainIsOrder | simplebot_tggroups/util.py:18-23 | Successive `get_nowait` calls return the queue oldest first |
| Commands.Bridge | simplebot_tggroups/__init__.py:259-280 | The payload check comes first: a non-integer payload gets "must provide the ID", even in a group. Then the chat check: outside a group the reply is "group chats only". Then, in a group with no link: the link `chat → tgchat` is added, the reply is "Bridged", and no other link changes. An already-bridged group gets "already bridged". In every refused case the state is unchanged |
| Commands.Unbridge | simplebot_tggroups/__init__.py:283-292 | A bridged group loses exactly its own link and gets "Bridge removed". Otherwise the reply is "not bridged" and the state is unchanged |
| Commands.MemberRemoved | simplebot_tggroups/__init__.py:238-246 | If the bot was removed, or at most one member is left, the group's link is deleted. Otherwise nothing changes. Other groups' links are never touched |
| Commands.QueueRows | simplebot_tggroups/__init__.py:254-256 | Appends one item per link row of the message's group, behind the existing queue |
| Commands.FilterMessages | simplebot_tggroups/__init__.py:249-256 | Outside a group, nothing changes. In a group, one item `(tgchat, message)` is appended if the group is bridged. The rest of the queue and all other state are unchanged |
| Commands.DeltabotInit | simplebot_tggroups/__init__.py:212-214 | The start-up hook changes only the settings and supplies the 5 MiB `max_size` default |
| Commands.SecondBridgeRefused | simplebot_tggroups/__init__.py:274-280 | The first `/bridge` of a group succeeds. A second one is refused with "already bridged" and changes nothing |
| Commands.BridgeThenUnbridge | simplebot_tggroups/__init__.py:274-292 | `/unbridge` after `/bridge` restores every lookup. A further `/unbridge` is refused with "not bridged" |
| DeltaToTelegram.AttachmentOf | simplebot_tggroups/__init__.py:94-103 | The message's own file is sent. It is sent as MP3 exactly when it is an AAC file and the transcoding worked; otherwise the file itself is sent. Without a file, the HTML part is sent. There is nothing to attach exactly when the message has neither |
| DeltaToTelegram.ReplyTargetAfterRecord | simplebot_tggroups/__init__.py:109-121 | Once a relay recorded Delta Chat message `q` as Telegram message `tgid`, a later message quoting `q` in that chat is sent as a reply to `tgid`. Recording any other message, or a message of another Telegram chat, leaves every reply target unchanged |
| DeltaToTelegram.Notices | simplebot_tggroups/__init__.py:133-144 | The unbridge notices go to the unbridged groups in order, each only if it goes through. The first failure ends the notices |
| DeltaToTelegram.Step | simplebot_tggroups/__init__.py:88-146 | On an empty queue the worker waits. Otherwise it takes exactly the oldest item. A message with nothing to send ends the worker and sends nothing. A delivered message is sent with its reply target, and both cache keys are recorded. An unreachable chat (private channel, invalid id or ValueError) loses every link pointing at it, the other links are kept, and the unbridged groups are notified. Any other error drops the item. The link table stays valid and the settings never change |
| DeltaToTelegram.RunWorker | simplebot_tggroups/__init__.py:88-108 | Iterations take items strictly in queue order, and the queue left over is the suffix behind the last item taken. The worker ends only right after an item with nothing to send. Otherwise it runs until the queue or the iterations run out |
| DeltaToTelegram.DeliveredStep | simplebot_tggroups/__init__.py:88-121 | When the send goes through, an iteration takes the oldest item, keeps every link, and either ends the worker having sent nothing or sends exactly that item's message to its Telegram chat |
| DeltaToTelegram.DeliveredRunSendsInOrder | simplebot_tggroups/__init__.py:88-121 | When every send goes through, the run sends one message per supported item it took and none for the item that ended it. The sends follow queue order, each going to its item's Telegram chat with its item's text, and no link changes |
| DeltaToTelegram.EveryUnbridgedGroupNotified | simplebot_tggroups/__init__.py:133-142 | When every notice goes through, each unbridged group gets exactly one notice, in table order |
| DeltaToTelegram.UnsupportedMessageEndsWorker | simplebot_tggroups/__init__.py:104-108 | When a queued message has no text, file or HTML, it is taken off the queue and the worker stops. Nothing is sent and every later item stays queued |
| TelegramToDelta.QuoteFor | simplebot_tggroups/__init__.py:188-196 | The quote is resolved exactly when the message replies to a non-zero id whose `t` key holds a non-zero id of an existing message, and it is that id |
| TelegramToDelta.DraftFor | simplebot_tggroups/__init__.py:158-196 | A message is relayed only with text (possibly empty), at least one linked group, a user sender, and text or a downloaded file. A file comes only from a download within `max_size` that saved a path. When such a download saved a path, the message is relayed with that file, even with empty text, and it is a sticker exactly when the Telegram message is one. The quote is the one resolved through the `t` key. A raising download and an unreadable `max_size` for a message with a file each drop the message. A message with non-empty text, links, a user sender, a readable `max_size` and no failed download is always relayed |
| TelegramToDelta.MediaOnlyMessageRelayed | simplebot_tggroups/__init__.py:180-204 | A message with empty text whose file was downloaded reaches every linked group that accepts it, carrying the downloaded file |
| TelegramToDelta.LastDelivered | simplebot_tggroups/__init__.py:197-202 | There is a result exactly when some linked group received the message. The result is the new message id of a group whose send succeeded and after which every send failed, so it is the last successful one |
| TelegramToDelta.Sends | simplebot_tggroups/__init__.py:197-204 | Every linked group that accepts the message receives it, whatever the others do. Only those groups receive it, each with the same message, in ascending group order |
| TelegramToDelta.Record | simplebot_tggroups/__init__.py:197-204 | The fan-out writes only keys of this Telegram chat. Among `t` keys it writes only that of this message. Among `d` keys it writes only those of delivered copies, and each points at this message |
| TelegramToDelta.RecordDeltaKeys | simplebot_tggroups/__init__.py:201 | After the fan-out, the `d` key of every delivered copy maps back to the Telegram message |
| TelegramToDelta.RecordTelegramKey | simplebot_tggroups/__init__.py:202 | After the fan-out, the `t` key of the Telegram message maps to the copy in the last group that received it. With no delivery it is unchanged |
| TelegramToDelta.Tg2Dc | simplebot_tggroups/__init__.py:154-204 | Only the cache changes. With no text, no link or no user sender, nothing happens at all. The file is downloaded exactly when the message has text, a linked group, a user sender and a file within `max_size`. The download, when it happens, is the first effect and happens once; every later effect is a send. A dropped message sends nothing and writes nothing. Otherwise each linked group receives the same message exactly when its own send succeeds, and the sends go out in ascending group order. In the cache, the `d` key of each delivered copy maps back to the Telegram message, and the `t` key of the Telegram message maps to the last delivered copy (unchanged when none was delivered). No other key changes: keys of other chats, `t` keys of other messages, and `d` keys of messages that were not delivered copies all keep their values |
| TelegramToDelta.OversizeAttachmentNotFetched | simplebot_tggroups/__init__.py:180-187 | A file over `max_size` is never downloaded. Such a message with empty text sends nothing and changes nothing |
| ReplyThreading.TelegramReplyQuotesDeltaOrigin | simplebot_tggroups/__init__.py:188-196 | After a Delta Chat message is relayed to Telegram, a Telegram reply to the relayed copy resolves its quote to the original Delta Chat message. Every group that receives the reply gets that quote |
| ReplyThreading.DeltaReplyAnswersTelegramOrigin | simplebot_tggroups/__init__.py:109-111 | After a Telegram message is relayed into a group, a message in that group quoting the copy is queued by `filter_messages` for the same Telegram chat. With the queue otherwise empty, the worker's next iteration sends it there as a reply to the Telegram original |
| ReplyThreading.SharedQuoteAcrossGroups | simplebot_tggroups/__init__.py:188-204 | With two groups on one Telegram chat, a failed send to one does not stop delivery to the other. The quote is resolved once and shared |

## Left out

- Telegram and Delta Chat client calls (`send_message`, `download_media`, `Replies`, `get_chat`, `get_message_by_id`): not modelled as code. Their outcomes are `Env` parameters, and the messages they send are `Effect` values.
- `set_commands`, the `/start` and `/id` handlers, `listen_to_telegram`, `deltabot_start`, `deltabot_init_parser` and the `sync` wrapper: network and event-loop plumbing.
- `_acc2mp3`: the pydub transcoding is external, so only its success or failure is a parameter (`Env.transcodeOk`).
- Temporary files and directories and `file_.close()`: these are file-system resources with no effect on the bookkeeping.
- Threads, the `_lock` mutex and the 20 ms poll sleep of `AsyncQueue`: the model is sequential. Each scope is one atomic step, and waiting is represented as "no result yet".
- `FileSystemCache` expiry (60 days): entries never expire in the model, so the reply-threading lemmas assume no expiry in between. Engine setup (`init`) is not modelled either.
- `simplebot_tggroups/subcommands.py` and `get_session_path`: interactive CLI, Telegram login and file-system side effects.
- `shorten_text` and sender-name rendering (`**name:** text`, `strip()` of the Telegram names): `shorten_text` is imported from `simplebot_tggroups/util.py` but not defined there, so it is not part of this model. The drafts carry the raw sender name and body instead of the rendered text.
- Decimal.ParseInt: follows a simplified grammar of an optional sign followed by ASCII digits. Python's `int()` also accepts surrounding whitespace, underscores and non-ASCII digits.
- Commands.Bridge: the only commit failure modelled is the primary-key violation. Other database errors also produce "already bridged" in the code.
- DeltaToTelegram.Step: the auto-unbridge scope is modelled as always committing. A database error there would be logged with no notices.
- TelegramToDelta.Tg2Dc: `Replies` is modelled as sending exactly the message just added for each group. Whether a failed send leaves it pending for the next group is behaviour of the host framework, which is not part of this model.
- PluginConfig.SetConfig: takes a string value only. The effect of storing `None` depends on the host bot's settings store, which is not part of this model.

=== FILE: bot_state.dfy ===
/**
 * The relay's bookkeeping state and the effects of its operations. Every
 * operation of the bridge is a pure transition from a `State` to a new state
 * plus the messages it sends, in order.
 */
module BotState {
  import opened Wrappers
  import LinkStore
  import CacheKeys
  import PluginConfig

  /**
   * A Delta Chat message as the relay sees it. An empty `filename`, `html`
   * or `overrideName` stands for Python's `None` as well as for `""`:
   * the code only tests their truth value.
   */
  datatype DcMsg = DcMsg(
    id: int,
    chat: int,
    text: string,
    filename: string,
    html: string,
    quote: Option<int>,          // id of the quoted message
    overrideName: string,
    displayName: string)

  /** An entry of the relay queue: the Telegram chat to send to and the message. */
  datatype Item = Item(tgchat: int, msg: DcMsg)

  datatype State = State(
    links: LinkStore.Table,
    cache: CacheKeys.Cache,
    config: PluginConfig.Config,
    queue: seq<Item>)

  /** The invariant every operation keeps: the link table satisfies its primary key. */
  predicate Inv(s: State) {
    LinkStore.Valid(s.links)
  }

  /** The file sent along with a message relayed to Telegram. */
  datatype Attachment =
    | NoAttachment
    | FilePath(path: string)      // the message's own file
    | Mp3Of(path: string)         // an AAC file transcoded to MP3
    | HtmlDocument(html: string)  // the message's HTML part as a temporary `.html` file

  /** What `send_message` is given; rendering of the sender name is not modelled. */
  datatype TgDraft = TgDraft(sender: string, body: string, attachment: Attachment, replyTo: Option<int>)

  /** What `Replies.add` is given for a message relayed to Delta Chat. */
  datatype DcDraft = DcDraft(sender: string, text: string, file: Option<string>, sticker: bool, quote: Option<int>)

  datatype Effect =
    | ReplyInDelta(dcchat: int, quote: Option<int>, text: string)   // a reply or notice in a Delta Chat group
    | SendToTelegram(tgchat: int, tgDraft: TgDraft)
    | FetchMedia(tgchat: int, msg: int)                              // `download_media` of a Telegram message
    | SendToDelta(dcchat: int, dcDraft: DcDraft)

  datatype Outcome = Outcome(state: State, effects: seq<Effect>)
}

=== FILE: cache_keys.dfy ===
/**
 * The message-identity cache. Every relayed message writes two entries:
 * `d{tgchat}/{dcid}` -> Telegram message id and `t{tgchat}/{tgid}` -> Delta
 * Chat message id. Keys are modelled as a datatype together with their text
 * encoding, which is proved injective so that the two writes never clobber
 * each other or any other entry. Entry expiry is not modelled.
 */
module CacheKeys {
  import opened Wrappers
  import opened Decimal

  /** `d` keys are indexed by a Delta Chat message id, `t` keys by a Telegram one. */
  datatype Side = DeltaSide | TelegramSide

  datatype Key = Key(side: Side, tgchat: int, msg: int)

  type Cache = map<string, int>

  function Tag(side: Side): char {
    match side
    case DeltaSide => 'd'
    case TelegramSide => 't'
  }

  function SideOf(c: char): (r: Option<Side>)
    ensures r.Some? ==> Tag(r.value) == c
  {
    if c == 'd' then Some(DeltaSide)
    else if c == 't' then Some(TelegramSide)
    else None
  }

  /** The text of a key: tag, chat id, `/`, message id. */
  function Encode(k: Key): (s: string)
    ensures |s| > 0 && s[0] == Tag(k.side)
    ensures s[0] == 'd' <==> k.side == DeltaSide
    ensures s[0] == 't' <==> k.side == TelegramSide
  {
    [Tag(k.side)] + FormatInt(k.tgchat) + "/" + FormatInt(k.msg)
  }

  /** Position of the first occurrence of `c` in `s`. */
  function IndexOf(s: string, c: char): (r: Option<nat>)
    ensures r.None? ==> c !in s
    ensures r.Some? ==> r.value < |s| && s[r.value] == c && c !in s[..r.value]
  {
    if |s| == 0 then None
    else if s[0] == c then Some(0)
    else
      var rest :- IndexOf(s[1..], c);
      assert s[1..][..rest] == s[1..rest + 1];
      Some(rest + 1)
  }

  /** Reads a key back from its text; `None` for text no key encodes to. */
  function Decode(s: string): (r: Option<Key>)
    ensures r.Some? ==> |s| > 0 && Tag(r.value.side) == s[0]
  {
    if |s| == 0 then None
    else
      var side :- SideOf(s[0]);
      var rest := s[1..];
      var slash :- IndexOf(rest, '/');
      var tgchat :- ParseInt(rest[..slash]);
      var msg :- ParseInt(rest[slash + 1..]);
      Some(Key(side, tgchat, msg))
  }

  lemma NoSlashInNumber(n: int)
    ensures '/' !in FormatInt(n)
  {
  }

  /** The first `/` of `a + "/" + b` is the one after `a` when `a` has none. */
  lemma IndexOfSeparator(a: string, b: string)
    requires '/' !in a
    ensures IndexOf(a + "/" + b, '/') == Some(|a|)
  {
    var s := a + "/" + b;
    var slash := IndexOf(s, '/');
    forall j | 0 <= j < |a|
      ensures s[j] != '/'
    {
      assert s[j] == a[j];
    }
    forall j | |a| < j <= |s|
      ensures '/' in s[..j]
    {
      assert s[..j][|a|] == '/';
    }
  }

  /** Decoding the text of a key gives the key back. */
  lemma DecodeEncode(k: Key)
    ensures Decode(Encode(k)) == Some(k)
  {
    var chat := FormatInt(k.tgchat);
    var msg := FormatInt(k.msg);
    var s := Encode(k);
    var rest := s[1..];
    assert rest == chat + "/" + msg;
    NoSlashInNumber(k.tgchat);
    IndexOfSeparator(chat, msg);
    assert rest[..|chat|] == chat;
    assert rest[|chat| + 1..] == msg;
    ParseFormat(k.tgchat);
    ParseFormat(k.msg);
    assert SideOf(s[0]) == Some(k.side);
  }

  /** Distinct keys have distinct texts, so no write to one key disturbs another. */
  lemma EncodeInjective(a: Key, b: Key)
    ensures Encode(a) == Encode(b) ==> a == b
  {
    DecodeEncode(a);
    DecodeEncode(b);
  }

  /** `cache.get(key)`: the stored value, or `None` for a missing entry. */
  function Get(c: Cache, k: Key): (r: Option<int>)
    ensures r.None? <==> Encode(k) !in c
    ensures c == map[] ==> r.None?
  {
    if Encode(k) in c then Some(c[Encode(k)]) else None
  }

  /** `cache.set(key, value)`: the key reads back the value, and no other key is disturbed. */
  function Set(c: Cache, k: Key, v: int): (r: Cache)
    ensures Get(r, k) == Some(v)
    ensures forall other :: other != k ==> Get(r, other) == Get(c, other)
    ensures r.Keys == c.Keys + {Encode(k)}
  {
    var r := c[Encode(k) := v];
    forall other | other != k
      ensures Get(r, other) == Get(c, other)
    {
      EncodeInjective(k, other);
    }
    r
  }

  /** A write is visible at its own key and leaves every other key as it was. */
  lemma GetAfterSet(c: Cache, k: Key, v: int, other: Key)
    ensures Get(Set(c, k, v), other) == if other == k then Some(v) else Get(c, other)
  {
    EncodeInjective(k, other);
  }

  /**
   * The two entries written after one message was relayed between Telegram
   * chat `tgchat` (message `tgid`) and Delta Chat (message `dcid`).
   */
  function RecordPair(c: Cache, tgchat: int, dcid: int, tgid: int): (r: Cache)
    ensures Get(r, Key(DeltaSide, tgchat, dcid)) == Some(tgid)
    ensures Get(r, Key(TelegramSide, tgchat, tgid)) == Some(dcid)
    ensures forall k :: k != Key(DeltaSide, tgchat, dcid) && k != Key(TelegramSide, tgchat, tgid) ==>
      Get(r, k) == Get(c, k)
  {
    var c1 := Set(c, Key(DeltaSide, tgchat, dcid), tgid);
    var r := Set(c1, Key(TelegramSide, tgchat, tgid), dcid);
    GetAfterSet(c1, Key(TelegramSide, tgchat, tgid), dcid, Key(DeltaSide, tgchat, dcid));
    forall k | k != Key(DeltaSide, tgchat, dcid) && k != Key(TelegramSide, tgchat, tgid)
      ensures Get(r, k) == Get(c, k)
    {
      GetAfterSet(c1, Key(TelegramSide, tgchat, tgid), dcid, k);
      GetAfterSet(c, Key(DeltaSide, tgchat, dcid), tgid, k);
    }
    r
  }
}

=== FILE: commands.dfy ===
/**
 * The Delta Chat side of the plugin: the `/bridge` and `/unbridge`
 * commands, the member-removed hook, the message filter that feeds the relay
 * queue, and the start-up hook. Each runs its table access inside one
 * `session_scope`.
 */
module Commands {
  import opened Wrappers
  import opened Decimal
  import opened LinkStore
  import opened BotState
  import PluginConfig

  const MustProvideId: string := "\U{274C} You must provide the ID of the Telegram chat"
  const GroupsOnly: string := "\U{274C} Bridging is supported in group chats only"
  const Bridged: string := "\U{2714}\U{FE0F}Bridged"
  const AlreadyBridged: string := "\U{274C} This chat is already bridged"
  const BridgeRemoved: string := "\U{2714}\U{FE0F}Bridge removed"
  const NotBridged: string := "\U{274C} This chat is not bridged"

  /** The one reply a command sends, quoting the command message. */
  function Answer(chat: int, msg: int, text: string): Effect {
    ReplyInDelta(chat, Some(msg), text)
  }

  /**
   * `/bridge <payload>` sent as message `msg` in Delta Chat group `chat`.
   * The payload is checked before the chat; a second link for a chat breaks
   * the primary key, so the insert is rolled back.
   */
  function Bridge(s: State, chat: int, multiuser: bool, msg: int, payload: string): (r: Outcome)
    requires Inv(s)
    ensures Inv(r.state)
    ensures r.state.cache == s.cache && r.state.config == s.config && r.state.queue == s.queue
    ensures ParseInt(payload).None? ==> r == Outcome(s, [Answer(chat, msg, MustProvideId)])
    ensures ParseInt(payload).Some? && !multiuser ==> r == Outcome(s, [Answer(chat, msg, GroupsOnly)])
    ensures ParseInt(payload).Some? && multiuser && Lookup(s.links, chat).Some? ==>
              r == Outcome(s, [Answer(chat, msg, AlreadyBridged)])
    ensures ParseInt(payload).Some? && multiuser && Lookup(s.links, chat).None? ==>
              && r.effects == [Answer(chat, msg, Bridged)]
              && Lookup(r.state.links, chat) == ParseInt(payload)
              && forall dc :: dc != chat ==> Lookup(r.state.links, dc) == Lookup(s.links, dc)
  {
    match ParseInt(payload)
    case None => Outcome(s, [Answer(chat, msg, MustProvideId)])
    case Some(tgchat) =>
      if !multiuser then Outcome(s, [Answer(chat, msg, GroupsOnly)])
      else
        var row := Link(chat, tgchat);
        LookupAfterAdd(s.links, row);
        match SessionScope(s.links, Completed([Add(row)]))
        case Committed(t) => Outcome(s.(links := t), [Answer(chat, msg, Bridged)])
        case RolledBack(t, _) => Outcome(s.(links := t), [Answer(chat, msg, AlreadyBridged)])
  }

  /** `/unbridge` in group `chat`: deletes that chat's link, if it has one. */
  function Unbridge(s: State, chat: int, msg: int): (r: Outcome)
    requires Inv(s)
    ensures Inv(r.state)
    ensures r.state.cache == s.cache && r.state.config == s.config && r.state.queue == s.queue
    ensures Lookup(s.links, chat).None? ==> r == Outcome(s, [Answer(chat, msg, NotBridged)])
    ensures Lookup(s.links, chat).Some? ==>
              && r.effects == [Answer(chat, msg, BridgeRemoved)]
              && Lookup(r.state.links, chat).None?
              && forall dc :: dc != chat ==> Lookup(r.state.links, dc) == Lookup(s.links, dc)
  {
    var rows := RowsOfDc(s.links, chat);
    if |rows| > 0 then
      assert rows[0] in rows;
      LookupAfterDelete(s.links, rows[0].dcchat);
      var scope := SessionScope(s.links, Completed([Delete(rows[0].dcchat)]));
      Outcome(s.(links := scope.table), [Answer(chat, msg, BridgeRemoved)])
    else
      var scope := SessionScope(s.links, Completed([]));
      Outcome(s.(links := scope.table), [Answer(chat, msg, NotBridged)])
  }

  /**
   * `deltabot_member_removed`: when the bot itself left `chat`, or at most one
   * member remains, the chat's links are deleted; otherwise nothing happens.
   */
  function MemberRemoved(s: State, chat: int, removedIsBot: bool, membersLeft: nat): (r: Outcome)
    requires Inv(s)
    ensures Inv(r.state) && r.effects == []
    ensures r.state.cache == s.cache && r.state.config == s.config && r.state.queue == s.queue
    ensures !removedIsBot && membersLeft > 1 ==> r.state == s
    ensures removedIsBot || membersLeft <= 1 ==> Lookup(r.state.links, chat).None?
    ensures forall dc :: dc != chat ==> Lookup(r.state.links, dc) == Lookup(s.links, dc)
  {
    if !removedIsBot && membersLeft > 1 then Outcome(s, [])
    else
      var rows := RowsOfDc(s.links, chat);
      var ops := Deletes(seq(|rows|, i requires 0 <= i < |rows| => rows[i].dcchat));
      LookupAfterDelete(s.links, chat);
      assert Flush(s.links, ops) == Flush(s.links, [Delete(chat)]) by {
        if |rows| > 0 {
          assert rows[0] in rows;
          assert ops == [Delete(chat)];
        } else {
          assert ops == [];
          assert Without(s.links, chat) == s.links by {
            WithoutAbsent(s.links, chat);
          }
        }
      }
      Outcome(s.(links := SessionScope(s.links, Completed(ops)).table), [])
  }

  /** Appends one relay item per link row of the message's chat. */
  function QueueRows(queue: seq<Item>, rows: seq<Link>, m: DcMsg): (r: seq<Item>)
    ensures |r| == |queue| + |rows| && r[..|queue|] == queue
    ensures forall i :: 0 <= i < |rows| ==> r[|queue| + i] == Item(rows[i].tgchat, m)
    decreases |rows|
  {
    if |rows| == 0 then queue else QueueRows(queue + [Item(rows[0].tgchat, m)], rows[1..], m)
  }

  /**
   * `filter_messages`: a message in a group with a link is queued for the
   * Telegram chat it is bridged to; nothing else changes.
   */
  function FilterMessages(s: State, m: DcMsg, multiuser: bool): (r: Outcome)
    requires Inv(s)
    ensures r.effects == [] && r.state.links == s.links
    ensures r.state.cache == s.cache && r.state.config == s.config
    ensures !multiuser ==> r.state == s
    ensures multiuser ==>
              r.state.queue == s.queue + (match Lookup(s.links, m.chat) case None => [] case Some(tg) => [Item(tg, m)])
  {
    if !multiuser then Outcome(s, [])
    else
      var rows := RowsOfDc(s.links, m.chat);
      var q := QueueRows(s.queue, rows, m);
      if |rows| > 0 then
        assert rows[0] in rows;
        LookupExact(s.links, m.chat, rows[0].tgchat);
        assert q == s.queue + [Item(rows[0].tgchat, m)];
        Outcome(s.(queue := q), [])
      else
        assert q == s.queue;
        Outcome(s.(queue := q), [])
  }

  /** `deltabot_init` acting on the settings. */
  function DeltabotInit(s: State): (r: Outcome)
    ensures r.effects == [] && r.state == s.(config := r.state.config)
    ensures PluginConfig.Stored(s.config, PluginConfig.MaxSizeName).None? ==>
              PluginConfig.MaxSize(r.state.config) == Some(5242880)
    ensures PluginConfig.Stored(s.config, PluginConfig.MaxSizeName).Some? ==> r.state == s
  {
    Outcome(s.(config := PluginConfig.DeltabotInit(s.config)), [])
  }

  /** Bridging a group twice: the first succeeds, the second is refused and changes nothing. */
  lemma SecondBridgeRefused(s: State, chat: int, msg1: int, p1: string, msg2: int, p2: string)
    requires Inv(s) && Lookup(s.links, chat).None? && ParseInt(p1).Some? && ParseInt(p2).Some?
    ensures var first := Bridge(s, chat, true, msg1, p1);
            && first.effects == [Answer(chat, msg1, Bridged)]
            && Bridge(first.state, chat, true, msg2, p2) == Outcome(first.state, [Answer(chat, msg2, AlreadyBridged)])
  {
  }

  /** `/unbridge` after a successful `/bridge` removes the link again, and a second one is refused. */
  lemma BridgeThenUnbridge(s: State, chat: int, msg1: int, p: string, msg2: int, msg3: int)
    requires Inv(s) && Lookup(s.links, chat).None? && ParseInt(p).Some?
    ensures var bridged := Bridge(s, chat, true, msg1, p).state;
            var unbridged := Unbridge(bridged, chat, msg2);
            && unbridged.effects == [Answer(chat, msg2, BridgeRemoved)]
            && (forall dc :: Lookup(unbridged.state.links, dc) == Lookup(s.links, dc))
            && Unbridge(unbridged.state, chat, msg3).effects == [Answer(chat, msg3, NotBridged)]
  {
  }
}

=== FILE: decimal.dfy ===
/**
 * Decimal text of integers: Python's `str(n)` for the cache keys and a
 * simplified `int(s)` (an optional sign followed by ASCII digits) for the
 * `/bridge` payload and the `max_size` setting.
 */
module Decimal {
  import opened Wrappers

  predicate IsDigit(c: char) {
    '0' <= c <= '9'
  }

  predicate AllDigits(s: string) {
    forall i :: 0 <= i < |s| ==> IsDigit(s[i])
  }

  function DigitChar(d: nat): (c: char)
    requires d < 10
    ensures IsDigit(c)
  {
    "0123456789"[d]
  }

  function DigitValue(c: char): (d: nat)
    requires IsDigit(c)
    ensures d < 10
  {
    c as int - '0' as int
  }

  /** The number a string of digits denotes, most significant digit first. */
  function DigitsValue(s: string): nat
    requires AllDigits(s)
  {
    if |s| == 0 then 0 else DigitsValue(s[..|s| - 1]) * 10 + DigitValue(s[|s| - 1])
  }

  /** Decimal digits of a natural number, without leading zeros. */
  function NatDigits(n: nat): (s: string)
    ensures |s| > 0 && AllDigits(s)
    ensures DigitsValue(s) == n
    ensures |s| > 1 ==> s[0] != '0'
  {
    if n < 10 then [DigitChar(n)]
    else
      var prefix := NatDigits(n / 10);
      var s := prefix + [DigitChar(n % 10)];
      assert s[..|s| - 1] == prefix;
      s
  }

  /** Python's `str(n)`: a minus sign for negative numbers, then the digits. */
  function FormatInt(n: int): (s: string)
    ensures |s| > 0
    ensures forall i :: 0 <= i < |s| ==> s[i] == '-' || IsDigit(s[i])
  {
    if n < 0 then "-" + NatDigits(-n) else NatDigits(n)
  }

  /** Python's `int(s)` restricted to an optional `+`/`-` sign followed by one or more ASCII digits. */
  function ParseInt(s: string): (r: Option<int>)
    ensures r.Some? <==> |s| > 0 && (AllDigits(s) || ((s[0] == '-' || s[0] == '+') && |s| > 1 && AllDigits(s[1..])))
    ensures |s| > 0 && AllDigits(s) ==> r == Some(DigitsValue(s))
    ensures |s| > 1 && s[0] == '+' && AllDigits(s[1..]) ==> r == Some(DigitsValue(s[1..]))
    ensures |s| > 1 && s[0] == '-' && AllDigits(s[1..]) ==> r == Some(-(DigitsValue(s[1..]) as int))
    ensures r.Some? && r.value < 0 ==> s[0] == '-'
  {
    if |s| > 0 && (s[0] == '-' || s[0] == '+') then
      var digits := s[1..];
      if |digits| > 0 && AllDigits(digits) then
        var magnitude: int := DigitsValue(digits);
        Some(if s[0] == '-' then -magnitude else magnitude)
      else None
    else if |s| > 0 && AllDigits(s) then Some(DigitsValue(s))
    else None
  }

  /** Parsing the text of an integer gives that integer back. */
  lemma ParseFormat(n: int)
    ensures ParseInt(FormatInt(n)) == Some(n)
  {
    if n < 0 {
      var s := FormatInt(n);
      assert s[1..] == NatDigits(-n);
    }
  }

  /** Distinct integers have distinct texts. */
  lemma FormatInjective(a: int, b: int)
    ensures FormatInt(a) == FormatInt(b) ==> a == b
  {
    ParseFormat(a);
    ParseFormat(b);
  }
}

=== FILE: delta_to_telegram.dfy ===
/**
 * `TelegramBot.dc2tg`: the worker that drains the relay queue and sends each
 * Delta Chat message to its Telegram chat. One `Step` is one iteration of
 * its loop. The outcome of the Telegram calls (transcoding, sending, the
 * unbridge notices) is given by an `Env`.
 */
module DeltaToTelegram {
  import opened Wrappers
  import opened LinkStore
  import opened CacheKeys
  import opened BotState
  import RelayQueue

  const UnbridgedNotice: string :=
    "\U{274C} Chat unbridged from Telegram chat, make sure the chat ID is correct"
    + " or that the bot was not removed from the Telegram chat"

  /** How `send_message` ended. */
  datatype SendOutcome =
    | Delivered(tgid: int)   // the new Telegram message id
    | Unreachable            // `ChannelPrivateError`, `ChatIdInvalidError` or `ValueError`
    | OtherError             // any other exception

  datatype Env = Env(
    transcodeOk: bool,                // whether the AAC to MP3 conversion worked
    send: SendOutcome,
    noticeDelivered: int -> bool)     // whether the unbridge notice to a Delta Chat group goes through

  datatype Status = Running | Stopped

  datatype StepResult =
    | Waiting                                 // the queue is empty: `aget` keeps polling
    | Stepped(outcome: Outcome, status: Status)

  predicate EndsWith(s: string, suffix: string) {
    |s| >= |suffix| && s[|s| - |suffix|..] == suffix
  }

  /** The file sent with the message: its own file (AAC transcoded when possible), else its HTML part. */
  function AttachmentOf(m: DcMsg, transcodeOk: bool): (a: Attachment)
    ensures a.NoAttachment? <==> m.filename == "" && m.html == ""
    ensures m.filename != "" ==> a == FilePath(m.filename) || a == Mp3Of(m.filename)
    ensures a.Mp3Of? <==> m.filename != "" && EndsWith(m.filename, ".aac") && transcodeOk
    ensures m.filename == "" && m.html != "" ==> a == HtmlDocument(m.html)
  {
    if m.filename != "" then
      if EndsWith(m.filename, ".aac") && transcodeOk then Mp3Of(m.filename) else FilePath(m.filename)
    else if m.html != "" then HtmlDocument(m.html)
    else NoAttachment
  }

  /** A message with neither text nor anything to attach. */
  predicate Unsupported(m: DcMsg) {
    m.text == "" && m.filename == "" && m.html == ""
  }

  /** The override sender name when set, else the contact's display name. */
  function SenderName(m: DcMsg): string {
    if m.overrideName != "" then m.overrideName else m.displayName
  }

  /** The Telegram message to reply to: the one the quoted Delta Chat message was paired with. */
  function ReplyTarget(c: Cache, tgchat: int, m: DcMsg): Option<int> {
    match m.quote
    case None => None
    case Some(q) => Get(c, Key(DeltaSide, tgchat, q))
  }

  /**
   * Once a relay recorded Delta Chat message `q` as Telegram message `tgid`,
   * a Delta Chat reply quoting `q` is sent as a reply to `tgid`. Recording
   * any other Delta Chat message, or a message of another Telegram chat,
   * leaves the reply target as it was.
   */
  lemma ReplyTargetAfterRecord(c: Cache, tgchat: int, q: int, tgid: int, target: int, m: DcMsg)
    ensures var after := RecordPair(c, tgchat, q, tgid);
      ReplyTarget(after, target, m) ==
        if target == tgchat && m.quote == Some(q) then Some(tgid) else ReplyTarget(c, target, m)
  {
    if m.quote.Some? {
      var after := RecordPair(c, tgchat, q, tgid);
      var k := Key(DeltaSide, target, m.quote.value);
      assert k != Key(TelegramSide, tgchat, tgid);
      if target != tgchat || m.quote.value != q {
        assert Get(after, k) == Get(c, k);
      }
    }
  }

  /**
   * The unbridge notices, one per unbridged group in order; the first that
   * fails ends the notifying loop, so later groups get none.
   */
  function Notices(dcs: seq<int>, delivered: int -> bool): (r: seq<Effect>)
    ensures |r| <= |dcs|
    ensures forall i :: 0 <= i < |r| ==> r[i] == ReplyInDelta(dcs[i], None, UnbridgedNotice) && delivered(dcs[i])
    ensures |r| < |dcs| ==> !delivered(dcs[|r|])
  {
    if |dcs| == 0 || !delivered(dcs[0]) then []
    else [ReplyInDelta(dcs[0], None, UnbridgedNotice)] + Notices(dcs[1..], delivered)
  }

  /** The message as sent to Telegram. */
  function DraftOf(c: Cache, item: Item, transcodeOk: bool): TgDraft {
    TgDraft(SenderName(item.msg), item.msg.text, AttachmentOf(item.msg, transcodeOk), ReplyTarget(c, item.tgchat, item.msg))
  }

  /**
   * One iteration of the `dc2tg` loop. The oldest item is taken off the
   * queue. A message with nothing to send ends the loop (the code returns
   * from the worker). A delivered message records its id pair in the cache.
   * An unreachable Telegram chat loses every link pointing at it and each
   * unbridged group is told. Any other error drops the item.
   */
  function Step(s: State, env: Env): (r: StepResult)
    requires Inv(s)
    ensures r.Waiting? <==> |s.queue| == 0
    ensures r.Stepped? ==> Inv(r.outcome.state)
    ensures r.Stepped? ==> r.outcome.state.queue == s.queue[1..] && r.outcome.state.config == s.config
    ensures r.Stepped? ==> (r.status.Stopped? <==> Unsupported(s.queue[0].msg))
    ensures r.Stepped? && r.status.Stopped? ==> r.outcome == Outcome(s.(queue := s.queue[1..]), [])
    ensures r.Stepped? && r.status.Running? && env.send.Delivered? ==>
              var item := s.queue[0];
              && r.outcome.effects == [SendToTelegram(item.tgchat, DraftOf(s.cache, item, env.transcodeOk))]
              && r.outcome.state.links == s.links
              && r.outcome.state.cache == RecordPair(s.cache, item.tgchat, item.msg.id, env.send.tgid)
    ensures r.Stepped? && r.status.Running? && env.send.Unreachable? ==>
              var tg := s.queue[0].tgchat;
              && r.outcome.effects == Notices(DcChatsOf(s.links, tg), env.noticeDelivered)
              && r.outcome.state.cache == s.cache
              && forall dc :: Lookup(r.outcome.state.links, dc) ==
                                if Lookup(s.links, dc) == Some(tg) then None else Lookup(s.links, dc)
    ensures r.Stepped? && r.status.Running? && env.send.OtherError? ==>
              r.outcome == Outcome(s.(queue := s.queue[1..]), [])
  {
    match RelayQueue.GetNowait(s.queue)
    case None => Waiting
    case Some((item, rest)) =>
      var s1 := s.(queue := rest);
      var m := item.msg;
      if m.text == "" && AttachmentOf(m, env.transcodeOk).NoAttachment? then
        Stepped(Outcome(s1, []), Stopped)
      else
        match env.send
        case Delivered(tgid) =>
          var sent := SendToTelegram(item.tgchat, DraftOf(s.cache, item, env.transcodeOk));
          Stepped(Outcome(s1.(cache := RecordPair(s.cache, item.tgchat, m.id, tgid)), [sent]), Running)
        case Unreachable =>
          var dcs := DcChatsOf(s.links, item.tgchat);
          LookupAfterDeleteAllOfTg(s.links, item.tgchat);
          var scope := SessionScope(s.links, Completed(Deletes(dcs)));
          var notices := if scope.Committed? then Notices(dcs, env.noticeDelivered) else [];
          Stepped(Outcome(s1.(links := scope.table), notices), Running)
        case OtherError =>
          Stepped(Outcome(s1, []), Running)
  }

  /** The worker after a run of iterations: what it did, how many items it took, whether it ended. */
  datatype Run = Run(outcome: Outcome, consumed: nat, stopped: bool)

  /**
   * Up to `|envs|` iterations of the loop, one environment each, until the
   * queue is empty or the worker has ended. Items are taken strictly in queue
   * order and everything behind the last one taken stays queued.
   */
  function RunWorker(s: State, envs: seq<Env>): (r: Run)
    requires Inv(s)
    ensures Inv(r.outcome.state) && r.outcome.state.config == s.config
    ensures r.consumed <= |s.queue| && r.consumed <= |envs|
    ensures r.outcome.state.queue == s.queue[r.consumed..]
    ensures r.stopped ==> r.consumed > 0 && Unsupported(s.queue[r.consumed - 1].msg)
    ensures forall i :: 0 <= i < r.consumed && !(r.stopped && i == r.consumed - 1) ==> !Unsupported(s.queue[i].msg)
    ensures !r.stopped ==> r.consumed == |s.queue| || r.consumed == |envs|
    decreases |envs|
  {
    if |envs| == 0 then Run(Outcome(s, []), 0, false)
    else
      match Step(s, envs[0])
      case Waiting => Run(Outcome(s, []), 0, false)
      case Stepped(o, status) =>
        if status.Stopped? then Run(o, 1, true)
        else
          var rest := RunWorker(o.state, envs[1..]);
          assert s.queue[1..][rest.consumed..] == s.queue[rest.consumed + 1..];
          Run(Outcome(rest.outcome.state, o.effects + rest.outcome.effects), rest.consumed + 1, rest.stopped)
  }

  /** One iteration in which the send goes through: it stops on an unsupported item, else sends exactly that item. */
  lemma DeliveredStep(s: State, env: Env)
    requires Inv(s) && |s.queue| > 0 && env.send.Delivered?
    ensures Step(s, env).Stepped?
    ensures var o := Step(s, env).outcome;
      && Inv(o.state) && o.state.queue == s.queue[1..] && o.state.links == s.links
      && (Step(s, env).status.Stopped? ==> o.effects == [])
      && (Step(s, env).status.Running? ==>
            o.effects == [SendToTelegram(s.queue[0].tgchat, DraftOf(s.cache, s.queue[0], env.transcodeOk))])
  {
  }

  /** `effects` are the sends of the first `|effects|` items of `queue`, one each, in order. */
  predicate SendsOfItems(effects: seq<Effect>, queue: seq<Item>) {
    && |effects| <= |queue|
    && forall i :: 0 <= i < |effects| ==>
         && effects[i].SendToTelegram?
         && effects[i].tgchat == queue[i].tgchat
         && effects[i].tgDraft.body == queue[i].msg.text
  }

  lemma SendsOfItemsCons(e: Effect, effects: seq<Effect>, queue: seq<Item>)
    requires |queue| > 0 && e.SendToTelegram? && e.tgchat == queue[0].tgchat && e.tgDraft.body == queue[0].msg.text
    requires SendsOfItems(effects, queue[1..])
    ensures SendsOfItems([e] + effects, queue)
  {
    forall i | 0 < i < |[e] + effects|
      ensures ([e] + effects)[i] == effects[i - 1] && queue[i] == queue[1..][i - 1]
    {
    }
  }

  /**
   * A run in which every send goes through: the worker sends one message per
   * supported item it took, in queue order, each to that item's Telegram
   * chat with that item's text, and no link changes.
   */
  lemma {:induction false} DeliveredRunSendsInOrder(s: State, envs: seq<Env>)
    requires Inv(s)
    requires forall i :: 0 <= i < |envs| ==> envs[i].send.Delivered?
    ensures var r := RunWorker(s, envs);
      && |r.outcome.effects| == (if r.stopped then r.consumed - 1 else r.consumed)
      && r.outcome.state.links == s.links
      && SendsOfItems(r.outcome.effects, s.queue)
    decreases |envs|
  {
    if |envs| > 0 && |s.queue| > 0 {
      DeliveredStep(s, envs[0]);
      var step := Step(s, envs[0]);
      if step.status.Running? {
        var o := step.outcome;
        var rest := RunWorker(o.state, envs[1..]);
        DeliveredRunSendsInOrder(o.state, envs[1..]);
        RunAfterRunningStep(s, envs);
        SendsOfItemsCons(o.effects[0], rest.outcome.effects, s.queue);
      }
    }
  }

  /** A run whose first iteration keeps the worker going is that iteration followed by the rest of the run. */
  lemma {:induction false} RunAfterRunningStep(s: State, envs: seq<Env>)
    requires Inv(s) && |envs| > 0 && Step(s, envs[0]).Stepped? && Step(s, envs[0]).status.Running?
    ensures var o := Step(s, envs[0]).outcome;
      var rest := RunWorker(o.state, envs[1..]);
      RunWorker(s, envs) == Run(Outcome(rest.outcome.state, o.effects + rest.outcome.effects), rest.consumed + 1, rest.stopped)
  {
  }

  /** When every notice goes through, each unbridged group is told exactly once, in table order. */
  lemma EveryUnbridgedGroupNotified(dcs: seq<int>, delivered: int -> bool)
    requires forall dc :: delivered(dc)
    ensures |Notices(dcs, delivered)| == |dcs|
    ensures forall i :: 0 <= i < |dcs| ==> Notices(dcs, delivered)[i] == ReplyInDelta(dcs[i], None, UnbridgedNotice)
  {
  }

  /**
   * A queued message with nothing to send ends the worker: it is taken off
   * the queue and every item behind it stays queued with nothing sent.
   */
  lemma UnsupportedMessageEndsWorker(s: State, envs: seq<Env>)
    requires Inv(s) && |s.queue| > 0 && Unsupported(s.queue[0].msg) && |envs| > 0
    ensures RunWorker(s, envs) == Run(Outcome(s.(queue := s.queue[1..]), []), 1, true)
  {
  }
}

=== FILE: link_store.dfy ===
/**
 * The `link` table (one row per bridge, `dcchat` the primary key, `tgchat`
 * not unique) and the transactional `session_scope` around it.
 *
 * The table is a sequence of rows in ascending `dcchat` order: an INTEGER
 * primary key is the row id of the SQLite table, so that is the order in
 * which an unordered query visits the rows. `Valid` (strictly ascending
 * keys) is the primary-key constraint. Scopes are serialised by one
 * process-wide lock, so each scope is one atomic step of a sequential history.
 */
module LinkStore {
  import opened Wrappers

  datatype Link = Link(dcchat: int, tgchat: int)

  type Table = seq<Link>

  /** Rows are in strictly ascending `dcchat` order, hence no two rows share a `dcchat`. */
  predicate Valid(t: Table) {
    forall i, j :: 0 <= i < j < |t| ==> t[i].dcchat < t[j].dcchat
  }

  predicate Increasing(s: seq<int>) {
    forall i, j :: 0 <= i < j < |s| ==> s[i] < s[j]
  }

  /** The primary key: two rows of a valid table with the same `dcchat` are the same row. */
  lemma PrimaryKey(t: Table, a: Link, b: Link)
    requires Valid(t) && a in t && b in t && a.dcchat == b.dcchat
    ensures a == b
  {
    var i :| 0 <= i < |t| && t[i] == a;
    var j :| 0 <= j < |t| && t[j] == b;
    assert !(i < j) && !(j < i);
  }

  /** In a valid table every later row has a larger key than the first. */
  lemma TailAbove(t: Table)
    requires |t| > 0
    ensures Valid(t) ==> Valid(t[1..]) && forall l :: l in t[1..] ==> t[0].dcchat < l.dcchat
  {
  }

  /** The `tgchat` of the row keyed `dc`, if there is one. */
  function Lookup(t: Table, dc: int): (r: Option<int>)
    ensures r.Some? ==> Link(dc, r.value) in t
    ensures r.None? ==> forall l :: l in t ==> l.dcchat != dc
  {
    if |t| == 0 then None
    else if t[0].dcchat == dc then Some(t[0].tgchat)
    else Lookup(t[1..], dc)
  }

  lemma LookupExact(t: Table, dc: int, tg: int)
    requires Valid(t)
    ensures Lookup(t, dc) == Some(tg) <==> Link(dc, tg) in t
  {
    if Link(dc, tg) in t {
      var r := Lookup(t, dc);
      PrimaryKey(t, Link(dc, tg), Link(dc, r.value));
    }
  }

  /** Two valid tables with the same rows for key `dc` give the same lookup for it. */
  lemma SameRowsSameLookup(t: Table, u: Table, dc: int)
    requires Valid(t) && Valid(u)
    requires forall tg :: Link(dc, tg) in t <==> Link(dc, tg) in u
    ensures Lookup(t, dc) == Lookup(u, dc)
  {
    if Lookup(t, dc).Some? {
      LookupExact(u, dc, Lookup(t, dc).value);
    }
    if Lookup(u, dc).Some? {
      LookupExact(t, dc, Lookup(u, dc).value);
    }
  }

  /** `query(Link).filter_by(dcchat=dc)`: the matching rows, in table order. */
  function RowsOfDc(t: Table, dc: int): (r: seq<Link>)
    ensures forall l :: l in r <==> l in t && l.dcchat == dc
    ensures Valid(t) ==> |r| <= 1
    ensures (forall l :: l in t ==> l.dcchat != dc) ==> r == []
  {
    if |t| == 0 then []
    else if t[0].dcchat == dc then TailAbove(t); [t[0]] + RowsOfDc(t[1..], dc)
    else RowsOfDc(t[1..], dc)
  }

  /** `query(Link).filter_by(tgchat=tg)`, projected on `dcchat`, in table order. */
  function DcChatsOf(t: Table, tg: int): (r: seq<int>)
    ensures forall dc :: dc in r <==> Link(dc, tg) in t
    ensures Valid(t) ==> Increasing(r)
  {
    if |t| == 0 then []
    else if t[0].tgchat == tg then
      var rest := DcChatsOf(t[1..], tg);
      assert Valid(t) ==> Increasing([t[0].dcchat] + rest) by {
        if Valid(t) {
          TailAbove(t);
          forall j | 0 <= j < |rest|
            ensures t[0].dcchat < rest[j]
          {
            assert rest[j] in rest;
          }
        }
      }
      [t[0].dcchat] + rest
    else DcChatsOf(t[1..], tg)
  }

  /** A row in front of a valid table of larger keys gives a valid table. */
  lemma ConsValid(l: Link, t: Table)
    requires Valid(t) && forall j :: 0 <= j < |t| ==> l.dcchat < t[j].dcchat
    ensures Valid([l] + t)
  {
  }

  /** Inserts a row whose key is new at its place in key order. */
  function InsertRow(t: Table, l: Link): (r: Table)
    requires Valid(t)
    requires forall x :: x in t ==> x.dcchat != l.dcchat
    ensures Valid(r)
    ensures forall x :: x in r <==> x in t || x == l
  {
    if |t| == 0 || l.dcchat < t[0].dcchat then [l] + t
    else
      TailAbove(t);
      var rest := InsertRow(t[1..], l);
      forall j | 0 <= j < |rest|
        ensures t[0].dcchat < rest[j].dcchat
      {
        assert rest[j] in rest;
      }
      ConsValid(t[0], rest);
      [t[0]] + rest
  }

  /** Deletes the row keyed `dc`, if any. */
  function Without(t: Table, dc: int): (r: Table)
    ensures forall x :: x in r <==> x in t && x.dcchat != dc
    ensures Valid(t) ==> Valid(r)
  {
    if |t| == 0 then []
    else if t[0].dcchat == dc then Without(t[1..], dc)
    else [t[0]] + Without(t[1..], dc)
  }

  /** Deleting a key no row has leaves the table as it is. */
  lemma {:induction false} WithoutAbsent(t: Table, dc: int)
    requires forall x :: x in t ==> x.dcchat != dc
    ensures Without(t, dc) == t
    decreases |t|
  {
    if |t| > 0 {
      assert t[0] in t;
      WithoutAbsent(t[1..], dc);
      assert [t[0]] + t[1..] == t;
    }
  }

  datatype StoreError =
    | IntegrityError   // a second row with an existing primary key
    | BodyRaised       // the code inside the scope raised

  /** Pending changes of a session: `session.add(row)` and `session.delete(row)`. */
  datatype Op = Add(row: Link) | Delete(dcchat: int)

  /** Applies one pending change; adding a row whose key exists violates the primary key. */
  function Apply(t: Table, op: Op): (r: Result<Table, StoreError>)
    requires Valid(t)
    ensures r.Success? ==> Valid(r.value)
    ensures op.Add? ==> (r.Success? <==> Lookup(t, op.row.dcchat).None?)
    ensures op.Add? && r.Success? ==> forall x :: x in r.value <==> x in t || x == op.row
    ensures op.Delete? ==> r.Success? && forall x :: x in r.value <==> x in t && x.dcchat != op.dcchat
  {
    match op
    case Add(row) =>
      if Lookup(t, row.dcchat).Some? then Failure(IntegrityError) else Success(InsertRow(t, row))
    case Delete(dc) => Success(Without(t, dc))
  }

  /** `session.commit()`: applies the pending changes in order; the first failure aborts it. */
  function Flush(t: Table, ops: seq<Op>): (r: Result<Table, StoreError>)
    requires Valid(t)
    ensures r.Success? ==> Valid(r.value)
    decreases |ops|
  {
    if |ops| == 0 then Success(t)
    else
      var t1 :- Apply(t, ops[0]);
      Flush(t1, ops[1..])
  }

  /** What the code inside a `with session_scope()` block did. */
  datatype Body = Completed(ops: seq<Op>) | Raised

  datatype ScopeOutcome =
    | Committed(table: Table)
    | RolledBack(table: Table, error: StoreError)   // the exception propagates to the caller

  /**
   * `session_scope`: when the body completes its changes are committed; when
   * the body or the commit raises everything is rolled back and the error is
   * re-raised.
   */
  function SessionScope(t: Table, body: Body): (r: ScopeOutcome)
    requires Valid(t)
    ensures Valid(r.table)
    ensures r.Committed? <==> body.Completed? && Flush(t, body.ops).Success?
    ensures r.Committed? ==> Flush(t, body.ops) == Success(r.table)
    ensures r.RolledBack? ==> r.table == t
    ensures body.Raised? ==> r.error == BodyRaised
  {
    match body
    case Raised => RolledBack(t, BodyRaised)
    case Completed(ops) =>
      match Flush(t, ops)
      case Success(t1) => Committed(t1)
      case Failure(e) => RolledBack(t, e)
  }

  /** One `session.delete` per `dcchat` of the list. */
  function Deletes(dcs: seq<int>): (ops: seq<Op>)
    ensures |ops| == |dcs|
    ensures forall i :: 0 <= i < |ops| ==> ops[i] == Delete(dcs[i])
  {
    if |dcs| == 0 then [] else [Delete(dcs[0])] + Deletes(dcs[1..])
  }

  /** Deleting a list of keys always commits and removes exactly the rows with those keys. */
  lemma {:induction false} FlushDeletes(t: Table, dcs: seq<int>)
    requires Valid(t)
    ensures Flush(t, Deletes(dcs)).Success?
    ensures forall x :: x in Flush(t, Deletes(dcs)).value <==> x in t && x.dcchat !in dcs
    decreases |dcs|
  {
    if |dcs| > 0 {
      var ops := Deletes(dcs);
      var t1 := Without(t, dcs[0]);
      assert ops[1..] == Deletes(dcs[1..]);
      FlushDeletes(t1, dcs[1..]);
      assert Flush(t, ops) == Flush(t1, ops[1..]);
    }
  }

  /** Deleting every row that points at `tg` keeps exactly the rows that point elsewhere. */
  lemma DeleteAllOfTg(t: Table, tg: int)
    requires Valid(t)
    ensures Flush(t, Deletes(DcChatsOf(t, tg))).Success?
    ensures forall x :: x in Flush(t, Deletes(DcChatsOf(t, tg))).value <==> x in t && x.tgchat != tg
  {
    var dcs := DcChatsOf(t, tg);
    FlushDeletes(t, dcs);
    forall x | x in t && x.dcchat in dcs
      ensures x.tgchat == tg
    {
      PrimaryKey(t, x, Link(x.dcchat, tg));
    }
  }

  /** `tgchat` is not unique: a new Delta Chat group may join a Telegram chat already bridged. */
  lemma {:induction false} SharedTelegramChat(t: Table, a: int, b: int, tg: int)
    requires Valid(t) && Lookup(t, a).None? && Lookup(t, b) == Some(tg)
    ensures Flush(t, [Add(Link(a, tg))]).Success?
    ensures var t' := Flush(t, [Add(Link(a, tg))]).value;
      a in DcChatsOf(t', tg) && b in DcChatsOf(t', tg)
  {
    var t' := InsertRow(t, Link(a, tg));
    assert Flush(t, [Add(Link(a, tg))]) == Flush(t', []);
  }

  /**
   * Committing one added row fails exactly when its key is bound; when it
   * succeeds it binds the key and changes the lookup of no other key.
   */
  lemma LookupAfterAdd(t: Table, l: Link)
    requires Valid(t)
    ensures Flush(t, [Add(l)]).Success? <==> Lookup(t, l.dcchat).None?
    ensures Flush(t, [Add(l)]).Success? ==>
              forall dc :: Lookup(Flush(t, [Add(l)]).value, dc) ==
                             if dc == l.dcchat then Some(l.tgchat) else Lookup(t, dc)
  {
    assert Flush(t, [Add(l)]) == (var t1 :- Apply(t, Add(l)); Flush(t1, []));
    if Lookup(t, l.dcchat).None? {
      var t' := InsertRow(t, l);
      forall dc
        ensures Lookup(t', dc) == if dc == l.dcchat then Some(l.tgchat) else Lookup(t, dc)
      {
        if dc == l.dcchat {
          LookupExact(t', dc, l.tgchat);
        } else {
          SameRowsSameLookup(t, t', dc);
        }
      }
    }
  }

  /** Committing the deletion of key `dc0` unbinds it and changes the lookup of no other key. */
  lemma LookupAfterDelete(t: Table, dc0: int)
    requires Valid(t)
    ensures Flush(t, [Delete(dc0)]).Success?
    ensures forall dc :: Lookup(Flush(t, [Delete(dc0)]).value, dc) ==
              if dc == dc0 then None else Lookup(t, dc)
  {
    var t' := Without(t, dc0);
    assert Flush(t, [Delete(dc0)]) == Flush(t', []);
    forall dc | dc != dc0
      ensures Lookup(t', dc) == Lookup(t, dc)
    {
      SameRowsSameLookup(t, t', dc);
    }
  }

  /** Deleting every row that points at `tg` unbinds exactly the keys bound to `tg`. */
  lemma LookupAfterDeleteAllOfTg(t: Table, tg: int)
    requires Valid(t)
    ensures Flush(t, Deletes(DcChatsOf(t, tg))).Success?
    ensures forall dc :: Lookup(Flush(t, Deletes(DcChatsOf(t, tg))).value, dc) ==
              if Lookup(t, dc) == Some(tg) then None else Lookup(t, dc)
  {
    DeleteAllOfTg(t, tg);
    var t' := Flush(t, Deletes(DcChatsOf(t, tg))).value;
    forall dc
      ensures Lookup(t', dc) == if Lookup(t, dc) == Some(tg) then None else Lookup(t, dc)
    {
      if Lookup(t, dc) != Some(tg) {
        SameRowsSameLookup(t, t', dc);
      }
    }
  }
}

=== FILE: plugin_config.dfy ===
/**
 * The plugin's settings: a string-to-string store shared with the host bot,
 * in which every key of this plugin lives under the scope `simplebot_tggroups`.
 * `getdefault` reads a setting and stores a default on first use;
 * `set_config` overwrites one setting.
 */
module PluginConfig {
  import opened Wrappers
  import opened Decimal

  /** The scope of every setting of the plugin: the name of its package. */
  const PluginScope: string := "simplebot_tggroups"

  /** Name of the setting holding the largest Telegram attachment, in bytes, that is downloaded. */
  const MaxSizeName: string := "max_size"

  /** The value `deltabot_init` stores for `max_size` when it is unset: `str(1024**2 * 5)`. */
  const MaxSizeDefault: string := FormatInt(1024 * 1024 * 5)

  datatype SettingKey = SettingKey(scope: string, name: string)

  type Config = map<SettingKey, string>

  /** `bot.get(name, scope=...)`: the stored setting of this plugin, if any. */
  function Stored(c: Config, name: string): Option<string> {
    var k := SettingKey(PluginScope, name);
    if k in c then Some(c[k]) else None
  }

  /** The two stores hold the same thing (or nothing) at key `k`. */
  predicate SameAt(a: Config, b: Config, k: SettingKey) {
    (k in a <==> k in b) && (k in a ==> a[k] == b[k])
  }

  datatype Read = Read(config: Config, value: Option<string>)

  /**
   * `getdefault(bot, name, default)`: the stored value when there is one;
   * otherwise the default, which is stored as well; with no default, nothing.
   */
  function GetDefault(c: Config, name: string, default: Option<string>): (r: Read)
    ensures Stored(c, name).Some? ==> r.value == Stored(c, name) && r.config == c
    ensures Stored(c, name).None? && default.Some? ==> r.value == default && Stored(r.config, name) == default
    ensures Stored(c, name).None? && default.None? ==> r.value.None? && r.config == c
    ensures forall k :: k != SettingKey(PluginScope, name) ==> SameAt(c, r.config, k)
  {
    match Stored(c, name)
    case Some(v) => Read(c, Some(v))
    case None =>
      match default
      case Some(d) => Read(c[SettingKey(PluginScope, name) := d], Some(d))
      case None => Read(c, None)
  }

  /** `set_config(bot, name, value)`: overwrites this plugin's setting `name` only. */
  function SetConfig(c: Config, name: string, value: string): (r: Config)
    ensures Stored(r, name) == Some(value)
    ensures forall k :: k != SettingKey(PluginScope, name) ==> SameAt(c, r, k)
  {
    c[SettingKey(PluginScope, name) := value]
  }

  /** A second `getdefault` with the same arguments returns the same value and writes nothing. */
  lemma GetDefaultIdempotent(c: Config, name: string, default: Option<string>)
    ensures var first := GetDefault(c, name, default);
      GetDefault(first.config, name, default) == Read(first.config, first.value)
  {
  }

  /** After `set_config`, `getdefault` returns the new value whatever its default. */
  lemma GetAfterSet(c: Config, name: string, value: string, default: Option<string>)
    ensures GetDefault(SetConfig(c, name, value), name, default) == Read(SetConfig(c, name, value), Some(value))
  {
  }

  /** `int(getdefault(bot, "max_size"))`; `None` where Python would raise (unset or not a number). */
  function MaxSize(c: Config): (r: Option<int>)
    ensures Stored(c, MaxSizeName).None? ==> r.None?
    ensures r.None? <==> Stored(c, MaxSizeName).None? || ParseInt(Stored(c, MaxSizeName).value).None?
    ensures forall n :: Stored(c, MaxSizeName) == Some(FormatInt(n)) ==> r == Some(n)
    ensures r.Some? ==> Stored(c, MaxSizeName).Some? && |Stored(c, MaxSizeName).value| > 0
  {
    forall n | Stored(c, MaxSizeName) == Some(FormatInt(n))
      ensures ParseInt(FormatInt(n)) == Some(n)
    {
      ParseFormat(n);
    }
    match Stored(c, MaxSizeName)
    case None => None
    case Some(v) => ParseInt(v)
  }

  /** `deltabot_init`: stores the default `max_size` of 5 MiB unless one is set; the `telegram_bot` read writes nothing. */
  function DeltabotInit(c: Config): (r: Config)
    ensures Stored(r, MaxSizeName).Some?
    ensures Stored(c, MaxSizeName).Some? ==> r == c
    ensures Stored(c, MaxSizeName).None? ==> MaxSize(r) == Some(5242880)
    ensures forall k :: k != SettingKey(PluginScope, MaxSizeName) ==> SameAt(c, r, k)
  {
    ParseFormat(1024 * 1024 * 5);
    var withMaxSize := GetDefault(c, MaxSizeName, Some(MaxSizeDefault)).config;
    GetDefault(withMaxSize, "telegram_bot", None).config
  }

  /** Running the start-up hook twice is the same as running it once. */
  lemma DeltabotInitIdempotent(c: Config)
    ensures DeltabotInit(DeltabotInit(c)) == DeltabotInit(c)
  {
  }
}

=== FILE: relay_queue.dfy ===
/**
 * `AsyncQueue`: Python's `queue.Queue` with coroutine `aget`/`aput` that poll
 * `get_nowait`/`put_nowait` every 20 ms until they succeed. A queue is its
 * items, oldest first; `maxsize` zero or less means unbounded, which is how
 * the relay queue is created. Waiting is modelled as "no result yet".
 */
module RelayQueue {
  import opened Wrappers

  /** `Queue.full()`. */
  predicate Full<T>(items: seq<T>, maxsize: int) {
    0 < maxsize <= |items|
  }

  /** `put_nowait`: `None` stands for `queue.Full`, in which case nothing changes. */
  function PutNowait<T>(items: seq<T>, maxsize: int, x: T): (r: Option<seq<T>>)
    ensures r.None? <==> Full(items, maxsize)
    ensures r.Some? ==> |r.value| == |items| + 1 && r.value[..|items|] == items && r.value[|items|] == x
  {
    if Full(items, maxsize) then None else Some(items + [x])
  }

  /**
   * `aget`/`get_nowait`: the oldest item and the queue without it;
   * `None` when empty (`aget` then sleeps and polls again).
   */
  function GetNowait<T>(items: seq<T>): (r: Option<(T, seq<T>)>)
    ensures r.None? <==> |items| == 0
    ensures r.Some? ==> items == [r.value.0] + r.value.1
  {
    if |items| == 0 then None else Some((items[0], items[1..]))
  }

  /** The relay queue is unbounded, so `put` and `aput` succeed on their first attempt. */
  lemma UnboundedNeverFull<T>(items: seq<T>, maxsize: int, x: T)
    requires maxsize <= 0
    ensures PutNowait(items, maxsize, x) == Some(items + [x])
  {
  }

  /** A retrying `aput` on a full bounded queue succeeds once the consumer has taken an item. */
  lemma APutSucceedsAfterGet<T>(items: seq<T>, maxsize: int, x: T)
    requires Full(items, maxsize) && |items| == maxsize
    ensures PutNowait(GetNowait(items).value.1, maxsize, x).Some?
  {
  }

  /** Items in the order successive `get_nowait` calls return them. */
  function Drain<T>(items: seq<T>): (r: seq<T>)
    decreases |items|
  {
    match GetNowait(items)
    case None => []
    case Some((x, rest)) => [x] + Drain(rest)
  }

  /** Successive `put_nowait` calls on an unbounded queue. */
  function PutAll<T>(items: seq<T>, xs: seq<T>): (r: seq<T>)
    decreases |xs|
  {
    if |xs| == 0 then items
    else PutAll(PutNowait(items, 0, xs[0]).value, xs[1..])
  }

  /** FIFO: whatever was queued comes out first, then the new items, each in the order put. */
  lemma {:induction false} FifoOrder<T>(items: seq<T>, xs: seq<T>)
    ensures Drain(PutAll(items, xs)) == items + xs
    decreases |xs|
  {
    if |xs| == 0 {
      DrainIsOrder(items);
    } else {
      FifoOrder(items + [xs[0]], xs[1..]);
      assert items + [xs[0]] + xs[1..] == items + xs;
    }
  }

  lemma {:induction false} DrainIsOrder<T>(items: seq<T>)
    ensures Drain(items) == items
    decreases |items|
  {
    if |items| > 0 {
      DrainIsOrder(items[1..]);
    }
  }
}

=== FILE: reply_threading.dfy ===
/**
 * Reply threading across the bridge: the two cache entries written when a
 * message is relayed let a reply on either side find the message it answers
 * on the other side.
 */
module ReplyThreading {
  import opened Wrappers
  import opened LinkStore
  import opened CacheKeys
  import opened BotState
  import DeltaToTelegram
  import TelegramToDelta
  import PluginConfig
  import Commands

  /**
   * A Delta Chat message relayed to Telegram as message `tgid`: a later
   * Telegram reply to `tgid` in that chat is relayed to every linked group
   * quoting the original Delta Chat message.
   */
  lemma TelegramReplyQuotesDeltaOrigin(s: State, env: DeltaToTelegram.Env, reply: TelegramToDelta.TgMsg,
                                      env2: TelegramToDelta.Env)
    requires Inv(s) && |s.queue| > 0 && !DeltaToTelegram.Unsupported(s.queue[0].msg)
    requires env.send.Delivered? && env.send.tgid != 0 && reply.replyTo == Some(env.send.tgid)
    requires s.queue[0].msg.id != 0 && env2.messageExists(s.queue[0].msg.id)
    ensures var after := DeltaToTelegram.Step(s, env).outcome.state;
            var tg := s.queue[0].tgchat;
            && TelegramToDelta.QuoteFor(after.cache, tg, reply, env2.messageExists) == Some(s.queue[0].msg.id)
            && forall e :: e in TelegramToDelta.Tg2Dc(after, tg, reply, env2).effects && e.SendToDelta? ==>
                 e.dcDraft.quote == Some(s.queue[0].msg.id)
  {
    var tg := s.queue[0].tgchat;
    var after := DeltaToTelegram.Step(s, env).outcome.state;
    assert Get(after.cache, Key(TelegramSide, tg, env.send.tgid)) == Some(s.queue[0].msg.id);
  }

  /**
   * A Telegram message relayed to group `dc` as message `x`: a message in
   * `dc` quoting `x` is queued by the Delta Chat filter and, when the worker
   * sends it, goes to that Telegram chat as a reply to the original Telegram
   * message. The relay queue starts empty, so the quoting message is the
   * next item the worker takes.
   */
  lemma DeltaReplyAnswersTelegramOrigin(s: State, tgchat: int, m: TelegramToDelta.TgMsg, env: TelegramToDelta.Env,
                                       dc: int, quoting: DcMsg, env2: DeltaToTelegram.Env)
    requires Inv(s) && s.queue == [] && TelegramToDelta.DraftFor(s, tgchat, m, env).Some?
    requires dc in DcChatsOf(s.links, tgchat) && env.deliver(dc).Some?
    requires quoting.chat == dc && quoting.quote == Some(env.deliver(dc).value) && !DeltaToTelegram.Unsupported(quoting)
    requires env2.send.Delivered?
    ensures var after := TelegramToDelta.Tg2Dc(s, tgchat, m, env).state;
            var next := Commands.FilterMessages(after, quoting, true).state;
            var sent := DeltaToTelegram.Step(next, env2).outcome.effects;
            && next.queue == [Item(tgchat, quoting)]
            && |sent| == 1 && sent[0].SendToTelegram? && sent[0].tgchat == tgchat
            && sent[0].tgDraft.replyTo == Some(m.id)
  {
    LookupExact(s.links, dc, tgchat);
  }

  /**
   * Scenario of a Telegram chat with two linked groups: the quote is
   * resolved once and every group that receives the message gets the same
   * quote, whichever other group failed.
   */
  lemma SharedQuoteAcrossGroups(s: State, tgchat: int, m: TelegramToDelta.TgMsg, env: TelegramToDelta.Env, a: int, b: int)
    requires Inv(s) && Lookup(s.links, a) == Some(tgchat) && Lookup(s.links, b) == Some(tgchat)
    requires TelegramToDelta.DraftFor(s, tgchat, m, env).Some?
    requires env.deliver(a).None? && env.deliver(b).Some?
    ensures var r := TelegramToDelta.Tg2Dc(s, tgchat, m, env);
            && SendToDelta(b, TelegramToDelta.DraftFor(s, tgchat, m, env).value) in r.effects
            && TelegramToDelta.DraftFor(s, tgchat, m, env).value.quote ==
                 TelegramToDelta.QuoteFor(s.cache, tgchat, m, env.messageExists)
            && forall e :: e in r.effects ==> !(e.SendToDelta? && e.dcchat == a)
  {
    LookupExact(s.links, a, tgchat);
    LookupExact(s.links, b, tgchat);
  }
}

=== FILE: telegram_to_delta.dfy ===
/**
 * `TelegramBot.tg2dc`: the handler for a new Telegram message. It applies
 * its drop rules, downloads an attachment that is small enough, resolves the
 * quoted message once, then sends to every linked Delta Chat group in table
 * order, each independently of the others. The outcome of the calls into
 * the two chat clients is given by an `Env`.
 */
module TelegramToDelta {
  import opened Wrappers
  import opened LinkStore
  import opened CacheKeys
  import opened BotState
  import PluginConfig

  datatype TgFile = TgFile(size: int)

  /**
   * A Telegram message; `replyTo` is the id of the message it answers, if
   * any. `sender` is the user's name, or `None` when the message has no user
   * sender (a channel post or an anonymous admin): reading the name's parts
   * then raises.
   */
  datatype TgMsg = TgMsg(
    id: int,
    text: Option<string>,
    file: Option<TgFile>,
    sticker: bool,
    replyTo: Option<int>,
    sender: Option<string>)

  /** How `download_media` ended: a path, `None`, or an exception. */
  datatype Download = Saved(path: string) | NothingSaved | DownloadFailed

  datatype Env = Env(
    download: Download,
    messageExists: int -> bool,     // whether `get_message_by_id` finds the Delta Chat message
    deliver: int -> Option<int>)    // the new message id in a Delta Chat group, or `None` if sending raised

  /**
   * Whether the handler downloads the message's file: the message got past
   * the drop rules and the sender's name, and its file is within `max_size`.
   */
  predicate Fetches(s: State, tgchat: int, m: TgMsg) {
    && m.text.Some?
    && |DcChatsOf(s.links, tgchat)| > 0
    && m.sender.Some?
    && m.file.Some?
    && PluginConfig.MaxSize(s.config).Some?
    && m.file.value.size <= PluginConfig.MaxSize(s.config).value
  }

  /**
   * The Delta Chat message the quote resolves to: the `t` entry of the
   * message replied to, when it holds a non-zero id that names an existing
   * message.
   */
  function QuoteFor(c: Cache, tgchat: int, m: TgMsg, messageExists: int -> bool): (r: Option<int>)
    ensures r.Some? ==> && m.replyTo.Some? && m.replyTo.value != 0
                        && Get(c, Key(TelegramSide, tgchat, m.replyTo.value)) == r
                        && r.value != 0 && messageExists(r.value)
    ensures (&& m.replyTo.Some? && m.replyTo.value != 0
             && Get(c, Key(TelegramSide, tgchat, m.replyTo.value)).Some?
             && var q := Get(c, Key(TelegramSide, tgchat, m.replyTo.value)).value;
                q != 0 && messageExists(q)) ==> r.Some?
  {
    if m.replyTo.None? || m.replyTo.value == 0 then None
    else
      match Get(c, Key(TelegramSide, tgchat, m.replyTo.value))
      case None => None
      case Some(q) => if q != 0 && messageExists(q) then Some(q) else None
  }

  /**
   * The message to send to every linked group, or `None` when the handler
   * sends nothing: no text at all, no linked group, no user sender,
   * `max_size` unreadable for a message with a file, a failed download, or
   * neither text nor a downloaded file.
   */
  function DraftFor(s: State, tgchat: int, m: TgMsg, env: Env): (r: Option<DcDraft>)
    ensures r.Some? ==> && m.text.Some? && |DcChatsOf(s.links, tgchat)| > 0 && m.sender.Some?
                        && r.value.text == m.text.value && r.value.sender == m.sender.value
                        && r.value.quote == QuoteFor(s.cache, tgchat, m, env.messageExists)
                        && (m.text.value != "" || r.value.file.Some?)
    ensures r.Some? && r.value.file.Some? ==>
              Fetches(s, tgchat, m) && env.download == Saved(r.value.file.value) && r.value.file.value != ""
    ensures r.Some? && r.value.sticker ==> r.value.file.Some? && m.sticker
    ensures Fetches(s, tgchat, m) && env.download.Saved? && env.download.path != "" ==>
              && r.Some?
              && r.value.file == Some(env.download.path)
              && (r.value.sticker <==> m.sticker)
    ensures Fetches(s, tgchat, m) && env.download.DownloadFailed? ==> r.None?
    ensures m.file.Some? && PluginConfig.MaxSize(s.config).None? ==> r.None?
    ensures (&& m.text.Some? && m.text.value != "" && |DcChatsOf(s.links, tgchat)| > 0 && m.sender.Some?
             && (m.file.Some? ==> PluginConfig.MaxSize(s.config).Some?)
             && !(Fetches(s, tgchat, m) && env.download.DownloadFailed?)) ==> r.Some?
  {
    if m.text.None? || |DcChatsOf(s.links, tgchat)| == 0 || m.sender.None? then None
    else if m.file.Some? && PluginConfig.MaxSize(s.config).None? then None
    else
      var file: Option<string> :=
        if Fetches(s, tgchat, m) && env.download.Saved? && env.download.path != "" then Some(env.download.path)
        else None;
      if Fetches(s, tgchat, m) && env.download.DownloadFailed? then None
      else if m.text.value == "" && file.None? then None
      else
        Some(DcDraft(m.sender.value, m.text.value, file, file.Some? && m.sticker,
                     QuoteFor(s.cache, tgchat, m, env.messageExists)))
  }

  /** The last group, in order, whose send went through, with the id of its new message. */
  function LastDelivered(dcs: seq<int>, deliver: int -> Option<int>): (r: Option<int>)
    ensures r.Some? <==> exists i :: 0 <= i < |dcs| && deliver(dcs[i]).Some?
    ensures r.Some? ==> exists i :: && 0 <= i < |dcs| && deliver(dcs[i]) == r
                                    && forall j :: i < j < |dcs| ==> deliver(dcs[j]).None?
    decreases |dcs|
  {
    if |dcs| == 0 then None
    else
      var rest := LastDelivered(dcs[1..], deliver);
      assert forall i :: 0 < i < |dcs| ==> dcs[1..][i - 1] == dcs[i];
      match rest
      case Some(x) => Some(x)
      case None => deliver(dcs[0])
  }

  /** Whether some group's send went through with Delta Chat message id `id`. */
  predicate DeliveredAs(dcs: seq<int>, deliver: int -> Option<int>, id: int) {
    exists i :: 0 <= i < |dcs| && deliver(dcs[i]) == Some(id)
  }

  /**
   * The sends of the fan-out loop: every group is attempted in order, a
   * failure is caught and the loop goes on to the next group.
   */
  function Sends(dcs: seq<int>, draft: DcDraft, deliver: int -> Option<int>): (r: seq<Effect>)
    ensures forall e :: e in r ==> e.SendToDelta? && e.dcDraft == draft && e.dcchat in dcs && deliver(e.dcchat).Some?
    ensures forall dc :: dc in dcs && deliver(dc).Some? ==> SendToDelta(dc, draft) in r
    ensures Increasing(dcs) ==> forall i, j :: 0 <= i < j < |r| ==> r[i].dcchat < r[j].dcchat
    decreases |dcs|
  {
    if |dcs| == 0 then []
    else
      var rest := Sends(dcs[1..], draft, deliver);
      if deliver(dcs[0]).Some? then
        assert Increasing(dcs) ==> forall j :: 0 <= j < |rest| ==> dcs[0] < rest[j].dcchat by {
          if Increasing(dcs) {
            forall j | 0 <= j < |rest|
              ensures dcs[0] < rest[j].dcchat
            {
              assert rest[j] in rest;
            }
          }
        }
        [SendToDelta(dcs[0], draft)] + rest
      else rest
  }

  /** The cache writes of the fan-out loop: the id pair of every successful send, in order. */
  function Record(c: Cache, tgchat: int, tgid: int, dcs: seq<int>, deliver: int -> Option<int>): (r: Cache)
    ensures forall k: Key :: k.tgchat != tgchat ==> Get(r, k) == Get(c, k)
    ensures forall k: Key :: k.side == TelegramSide && k.msg != tgid ==> Get(r, k) == Get(c, k)
    ensures forall k: Key :: k.side == DeltaSide ==> Get(r, k) == Get(c, k) || Get(r, k) == Some(tgid)
    ensures forall k: Key :: k.side == DeltaSide && !DeliveredAs(dcs, deliver, k.msg) ==> Get(r, k) == Get(c, k)
    decreases |dcs|
  {
    if |dcs| == 0 then c
    else
      var c1 := match deliver(dcs[0])
        case Some(x) => RecordPair(c, tgchat, x, tgid)
        case None => c;
      var r := Record(c1, tgchat, tgid, dcs[1..], deliver);
      forall k: Key | k.side == DeltaSide && !DeliveredAs(dcs, deliver, k.msg)
        ensures Get(r, k) == Get(c, k)
      {
        assert forall i :: 0 <= i < |dcs| - 1 ==> dcs[1..][i] == dcs[i + 1];
        assert !DeliveredAs(dcs[1..], deliver, k.msg);
        assert deliver(dcs[0]) != Some(k.msg);
      }
      r
  }

  /** After the fan-out, the `d` entry of every message sent points back at the Telegram message. */
  lemma {:induction false} RecordDeltaKeys(c: Cache, tgchat: int, tgid: int, dcs: seq<int>, deliver: int -> Option<int>)
    ensures forall dc :: dc in dcs && deliver(dc).Some? ==>
              Get(Record(c, tgchat, tgid, dcs, deliver), Key(DeltaSide, tgchat, deliver(dc).value)) == Some(tgid)
    decreases |dcs|
  {
    if |dcs| > 0 {
      var c1 := match deliver(dcs[0])
        case Some(x) => RecordPair(c, tgchat, x, tgid)
        case None => c;
      RecordDeltaKeys(c1, tgchat, tgid, dcs[1..], deliver);
      assert Record(c, tgchat, tgid, dcs, deliver) == Record(c1, tgchat, tgid, dcs[1..], deliver);
    }
  }

  /**
   * After the fan-out, the `t` entry of the Telegram message points at the
   * message of the last group that received it; each success overwrote it.
   */
  lemma {:induction false} RecordTelegramKey(c: Cache, tgchat: int, tgid: int, dcs: seq<int>, deliver: int -> Option<int>)
    ensures Get(Record(c, tgchat, tgid, dcs, deliver), Key(TelegramSide, tgchat, tgid)) ==
              match LastDelivered(dcs, deliver)
              case Some(x) => Some(x)
              case None => Get(c, Key(TelegramSide, tgchat, tgid))
    decreases |dcs|
  {
    if |dcs| > 0 {
      var c1 := match deliver(dcs[0])
        case Some(x) => RecordPair(c, tgchat, x, tgid)
        case None => c;
      RecordTelegramKey(c1, tgchat, tgid, dcs[1..], deliver);
    }
  }

  /**
   * The cache `r` after the fan-out of Telegram message `tgid` from `tgchat`
   * over groups `dcs`, compared with the cache `c` before it: the `d` key of
   * every delivered copy points at `tgid`, the `t` key of `tgid` points at the
   * last delivered copy (unchanged when none was delivered), and no other key
   * changes.
   */
  ghost predicate FannedOut(c: Cache, r: Cache, tgchat: int, tgid: int, dcs: seq<int>, deliver: int -> Option<int>) {
    && (forall dc :: dc in dcs && deliver(dc).Some? ==> Get(r, Key(DeltaSide, tgchat, deliver(dc).value)) == Some(tgid))
    && Get(r, Key(TelegramSide, tgchat, tgid)) ==
         (match LastDelivered(dcs, deliver)
          case Some(x) => Some(x)
          case None => Get(c, Key(TelegramSide, tgchat, tgid)))
    && (forall k: Key :: k.tgchat != tgchat || (k.side == TelegramSide && k.msg != tgid) ==> Get(r, k) == Get(c, k))
    && (forall k: Key :: k.side == DeltaSide && !DeliveredAs(dcs, deliver, k.msg) ==> Get(r, k) == Get(c, k))
  }

  lemma RecordEffect(c: Cache, tgchat: int, tgid: int, dcs: seq<int>, deliver: int -> Option<int>)
    ensures FannedOut(c, Record(c, tgchat, tgid, dcs, deliver), tgchat, tgid, dcs, deliver)
  {
    RecordDeltaKeys(c, tgchat, tgid, dcs, deliver);
    RecordTelegramKey(c, tgchat, tgid, dcs, deliver);
  }

  /** The sends among `effects` go to strictly ascending groups. */
  predicate SendsAscending(effects: seq<Effect>) {
    forall i, j :: 0 <= i < j < |effects| && effects[i].SendToDelta? && effects[j].SendToDelta? ==>
      effects[i].dcchat < effects[j].dcchat
  }

  /** Putting the download in front of the sends keeps the sends in ascending group order. */
  lemma SendOrderAfterFetch(fetch: seq<Effect>, sends: seq<Effect>)
    requires forall e :: e in fetch ==> !e.SendToDelta?
    requires forall e :: e in sends ==> e.SendToDelta?
    requires forall i, j :: 0 <= i < j < |sends| ==> sends[i].dcchat < sends[j].dcchat
    ensures SendsAscending(fetch + sends)
  {
    var r := fetch + sends;
    forall k | 0 <= k < |fetch|
      ensures !r[k].SendToDelta?
    {
      assert r[k] == fetch[k];
    }
    forall i, j | 0 <= i < j < |r| && r[i].SendToDelta? && r[j].SendToDelta?
      ensures r[i].dcchat < r[j].dcchat
    {
      assert i >= |fetch|;
      assert r[i] == sends[i - |fetch|] && r[j] == sends[j - |fetch|];
    }
  }

  /** `tg2dc` on message `m` in Telegram chat `tgchat`; only the cache changes. */
  function Tg2Dc(s: State, tgchat: int, m: TgMsg, env: Env): (r: Outcome)
    requires Inv(s)
    ensures r.state == s.(cache := r.state.cache)
    ensures m.text.None? || |DcChatsOf(s.links, tgchat)| == 0 || m.sender.None? ==> r == Outcome(s, [])
    ensures FetchMedia(tgchat, m.id) in r.effects <==> Fetches(s, tgchat, m)
    ensures forall e :: e in r.effects ==> e == FetchMedia(tgchat, m.id) || e.SendToDelta?
    ensures Fetches(s, tgchat, m) ==> |r.effects| > 0 && r.effects[0] == FetchMedia(tgchat, m.id)
    ensures forall i :: 0 < i < |r.effects| ==> r.effects[i].SendToDelta?
    ensures DraftFor(s, tgchat, m, env).None? ==> r.state == s && forall e :: e in r.effects ==> !e.SendToDelta?
    ensures DraftFor(s, tgchat, m, env).Some? ==>
              var draft := DraftFor(s, tgchat, m, env).value;
              var dcs := DcChatsOf(s.links, tgchat);
              && (forall e :: e in r.effects && e.SendToDelta? ==> e.dcDraft == draft && e.dcchat in dcs)
              && (forall dc :: dc in dcs ==> (SendToDelta(dc, draft) in r.effects <==> env.deliver(dc).Some?))
              && FannedOut(s.cache, r.state.cache, tgchat, m.id, dcs, env.deliver)
              && SendsAscending(r.effects)
  {
    var fetch := if Fetches(s, tgchat, m) then [FetchMedia(tgchat, m.id)] else [];
    match DraftFor(s, tgchat, m, env)
    case None => Outcome(s, fetch)
    case Some(draft) =>
      var dcs := DcChatsOf(s.links, tgchat);
      RecordEffect(s.cache, tgchat, m.id, dcs, env.deliver);
      SendOrderAfterFetch(fetch, Sends(dcs, draft, env.deliver));
      Outcome(s.(cache := Record(s.cache, tgchat, m.id, dcs, env.deliver)), fetch + Sends(dcs, draft, env.deliver))
  }

  /**
   * A message with empty text whose file was downloaded is still relayed:
   * every linked group that accepts it gets the downloaded file.
   */
  lemma MediaOnlyMessageRelayed(s: State, tgchat: int, m: TgMsg, env: Env, dc: int)
    requires Inv(s) && Fetches(s, tgchat, m) && m.text == Some("")
    requires env.download.Saved? && env.download.path != ""
    requires dc in DcChatsOf(s.links, tgchat) && env.deliver(dc).Some?
    ensures exists e :: e in Tg2Dc(s, tgchat, m, env).effects && e.SendToDelta? && e.dcchat == dc
                        && e.dcDraft.file == Some(env.download.path) && e.dcDraft.text == ""
  {
    var draft := DraftFor(s, tgchat, m, env).value;
    assert SendToDelta(dc, draft) in Tg2Dc(s, tgchat, m, env).effects;
  }

  /**
   * A file over `max_size` is never downloaded, and without text such a
   * message sends nothing at all.
   */
  lemma OversizeAttachmentNotFetched(s: State, tgchat: int, m: TgMsg, env: Env)
    requires Inv(s) && m.file.Some? && PluginConfig.MaxSize(s.config).Some?
    requires m.file.value.size > PluginConfig.MaxSize(s.config).value
    ensures FetchMedia(tgchat, m.id) !in Tg2Dc(s, tgchat, m, env).effects
    ensures m.text == Some("") ==> Tg2Dc(s, tgchat, m, env) == Outcome(s, [])
  {
  }
}

=== FILE: wrappers.dfy ===
/**
 * The two failure-compatible types of the model. `Option` stands for a
 * Python value that may be `None`; `Result` for a call that may raise. Both
 * support `:-`, which returns early on `None` or on the exception.
 */
module Wrappers {

  datatype Option<T> = None | Some(value: T) {
    predicate IsFailure() { this.None? }
    function PropagateFailure<U>(): Option<U> requires this.None? { None }
    function Extract(): T requires this.Some? { this.value }
  }

  datatype Result<T, E> = Success(value: T) | Failure(error: E) {
    predicate IsFailure() { this.Failure? }
    function PropagateFailure<U>(): Result<U, E> requires this.Failure? { Failure(this.error) }
    function Extract(): T requires this.Success? { this.value }
  }
}
